=== FILE: README.md ===
# HellBot music queue, modelled in Dafny

HellBot's music extension keeps, for every guild (Discord server), a queue of
tracks waiting to be played on a Lavalink audio node, and at most one "control
message" in chat that shows what is playing. Two mutable maps hold this state:
`Map` from guild id to a deque of tracks and `MessageMap` from guild id to the
control message. Three transitions drive it:

- a play request (`playOrEnqueueSong`), which either makes an idle guild active
  and dispatches the track to the node at once, or appends the track to an
  active guild's queue;
- the node's track-end event, which dispatches the head of the queue, or, when
  the queue is empty, drops the guild from both maps;
- the node's track-start event, which replaces the control message, if there is
  one, with a fresh one announcing the track.

The `play` and `playfile` commands feed play requests: `play` turns a query that
is not an `http://` or `https://` URL into a `ytsearch:` query, and both commands
play a loaded track, or the first track of a playlist or search result, and
leave the state alone when nothing matched or loading failed.

The model (files `model.dfy`, `session.dfy`, `commands.dfy`, `runs.dfy`,
`captured_track.dfy`, `post_failure.dfy`, `duplicate_handlers.dfy`) states the maps as immutable Dafny maps and each transition as a
pure function returning the new state and one `Effect`: a dispatch to the node,
an append, a teardown, a control-message replacement, or nothing. Track values
and message handles are opaque data; the message ids the chat platform assigns
and the node's answer to a load request are parameters. `Runs` applies any
sequence of events over any guilds and proves the queue discipline over whole
runs: for every guild, the tracks dispatched followed by the tracks still
waiting are exactly the tracks that were waiting followed by the tracks
requested, so dispatch order is request order (FIFO) and nothing is lost or
played twice. This holds per handler invocation, that is, when each track-end
event runs the handler once. The code subscribes a new track-end handler on
every command, so one event can run it several times and skip tracks (see
Findings).

The code keeps no `isPlaying` or current-track field (a guild is "active"
exactly when it has a queue entry); a play request on an active guild
always appends, even when its queue is empty; teardown on track end only drops
the two map entries (it neither deletes the control message nor destroys the
node link); and a playlist contributes only its first track, the rest being
discarded.

## Model

| member | source | states |
|---|---|---|
| Session.PlayOrEnqueue | src/main/kotlin/HellBot/extensions/MusicExtension.kt:47-126 | Exactly one of dispatch and append happens, and it concerns the given track; dispatch happens iff the guild had no entry. An absent guild ends up active with an empty queue and a control message in the reply's channel; a present guild gets the track at the back and keeps its control message. Dispatched plus waiting equals previously waiting plus the track; other guilds are untouched; map consistency is kept. |
| Session.OnTrackEnd | src/main/kotlin/HellBot/extensions/MusicExtension.kt:142-153 | An absent guild is a no-op on all state. A non-empty queue dispatches its former head and keeps the rest in order. An empty queue removes the guild from both maps and dispatches nothing. Nothing is dispatched from outside the queue; other guilds are untouched. |
| Session.OnTrackStart | src/main/kotlin/HellBot/extensions/MusicExtension.kt:58-120 | Queues never change. Without a control message nothing happens; with one, the recorded handle is deleted and replaced by a new message in the same channel that announces the started track (corrected behaviour, see Findings). |
| Commands.SearchQuery | src/main/kotlin/HellBot/extensions/MusicExtension.kt:160-165 | An `https://` or `http://` query is sent unchanged; any other query is sent as `ytsearch:` followed by the query. The result is a URL iff the query was, and carries the search prefix iff the query was not a URL. |
| Commands.SearchQueryRoundTrip | src/main/kotlin/HellBot/extensions/MusicExtension.kt:161-165 | The user's query can always be read back from the string sent to the node. |
| Commands.SearchQueryInjective | src/main/kotlin/HellBot/extensions/MusicExtension.kt:161-165 | Two different queries are never sent to the node as the same string. |
| Commands.Selected | src/main/kotlin/HellBot/extensions/MusicExtension.kt:167-205 | A track is selected iff the load result carries at least one track, and then it is the first one carried: the loaded track itself, or the first of a playlist or search result. |
| Commands.HandleLoad | src/main/kotlin/HellBot/extensions/MusicExtension.kt:167-205 | With no selected track the state is unchanged and nothing is dispatched or appended. With one, the new state and effect are exactly those of the play request for that track, with the command's reply message and placeholder id; so that track is dispatched or appended, the queue balance is kept, and the play response names it. No matches, load failure and an empty playlist or search give their own replies. |
| Commands.PlayCommand | src/main/kotlin/HellBot/extensions/MusicExtension.kt:155-216 | Without a voice channel nothing is loaded and the state is unchanged. With one, the node is asked for the normalised query and its answer is handled as above: the state change is the play request for the selected track. |
| Commands.PlayFileCommand | src/main/kotlin/HellBot/extensions/MusicExtension.kt:241-297 | As the play command, but the attachment URL is loaded as given. |
| Commands.OnlyFirstTrackPlays | src/main/kotlin/HellBot/extensions/MusicExtension.kt:181-203 | When the node returns several tracks, only the first reaches the guild's queue or the node; the rest are dropped. |
| Runs.ApplyConserves | src/main/kotlin/HellBot/extensions/MusicExtension.kt:122-151 | Any single event keeps every guild's balance: its dispatched tracks plus its queue afterwards equal its queue before plus the track it requested. |
| Runs.Conservation | src/main/kotlin/HellBot/extensions/MusicExtension.kt:47-153 | Over any run of events on any guilds, for every guild, the tracks dispatched followed by the tracks still waiting are the tracks waiting at the start followed by the tracks requested, in order. |
| Runs.FifoDispatch | src/main/kotlin/HellBot/extensions/MusicExtension.kt:122-147 | Over any run, the tracks dispatched for a guild are a prefix of the waiting tracks followed by the requested ones: dispatch order is request order, with no duplicate, and with no skip-ahead as long as each track-end runs the handler once. |
| Runs.RunPreservesConsistent | src/main/kotlin/HellBot/extensions/MusicExtension.kt:44-153 | The queue map and the message map always hold the same guilds. |
| Runs.RunIsolatesGuilds | src/main/kotlin/HellBot/extensions/MusicExtension.kt:44-153 | Events for one guild never change another guild's queue or control message. |
| Runs.ActivePlaysQueue | src/main/kotlin/HellBot/extensions/MusicExtension.kt:123-125 | On an active guild, a series of play requests puts the tracks at the back of the queue in call order and leaves the control message alone. |
| Runs.ActivePlaysOutputs | src/main/kotlin/HellBot/extensions/MusicExtension.kt:123-125 | On an active guild, each play request in a series is answered by appending its own track; nothing is dispatched. |
| Runs.IdlePlays | src/main/kotlin/HellBot/extensions/MusicExtension.kt:47-126 | On an idle guild, the first play request dispatches its track at once and leaves the queue empty; every later request appends, in call order. |
| Runs.EndsDrain | src/main/kotlin/HellBot/extensions/MusicExtension.kt:143-151 | Track-ends dispatch an active guild's queue head first, one track each, and the next one tears the guild down. |
| Runs.Walkthrough | src/main/kotlin/HellBot/extensions/MusicExtension.kt:47-153 | Play T1 on an idle guild, T1 starts, play T2 and T3, then three track-ends: T1 dispatched, control message replaced, T2 and T3 appended, T2 then T3 dispatched, then teardown back to the initial state. |
| CapturedTrack.OnTrackStartAsWritten | src/main/kotlin/HellBot/extensions/MusicExtension.kt:58-120 | The handler as written: same new state and same effect as the corrected one (the recorded message is deleted and a new one posted in its channel), except that the message announces the track captured when the handler was registered. |
| CapturedTrack.SecondTrackAnnouncedAsFirst | src/main/kotlin/HellBot/extensions/MusicExtension.kt:58-124 | With T1 then T2 requested and T1 ended, T2 is dispatched, yet the as-written handler announces T1 when T2 starts; the corrected handler announces T2. |
| PostFailure.PlayOrEnqueueAsWritten | src/main/kotlin/HellBot/extensions/MusicExtension.kt:48-56 | The play request when the placeholder post may fail: a successful post gives exactly the normal play request. A failed post on a guild without an entry leaves the entry holding the track, records no control message and dispatches nothing. |
| PostFailure.FailedPostWedgesGuild | src/main/kotlin/HellBot/extensions/MusicExtension.kt:48-56 | After a failed post on an idle guild, the queue and message maps disagree, and any later series of play requests dispatches nothing and only appends behind the unplayed track. |
| PostFailure.FailedPostThenAppends | src/main/kotlin/HellBot/extensions/MusicExtension.kt:48-56 | As written, a failed post followed by a request whose post succeeds appends the second track behind the first, and nothing plays. |
| PostFailure.PlayOrEnqueueChecked | src/main/kotlin/HellBot/extensions/MusicExtension.kt:48-56 | The corrected request: a failed post leaves the state as it was, a successful one is the normal play request, and map consistency is always kept. |
| PostFailure.FailedPostRecovers | src/main/kotlin/HellBot/extensions/MusicExtension.kt:48-56 | With the correction, after a failed post the next request whose post succeeds dispatches its own track at once. |
| DuplicateHandlers.EndAsWritten | src/main/kotlin/HellBot/extensions/MusicExtension.kt:139-153 | One track-end with several subscribed handlers, run one after another: the handlers only take tracks from the front of the queue, in order, and keep map consistency and never touch another guild's entries; with more runs than waiting tracks the guild ends up torn down; with one subscription it is exactly the single handler. |
| DuplicateHandlers.EndsOnlyShrinkQueues | src/main/kotlin/HellBot/extensions/MusicExtension.kt:142-153 | Any number of track-end handler runs never add a track to any guild's queue and never reorder one: for every guild at once, the queue afterwards is what remains of it after removing tracks from its front. |
| DuplicateHandlers.OneEndSkipsTrack | src/main/kotlin/HellBot/extensions/MusicExtension.kt:139-153 | After three `play` commands request T1, T2 and T3 on an idle guild, T1's end as written dispatches T2 and at once T3, then tears the guild down; the single handler dispatches T2 and keeps T3 waiting. |

## Left out

- The Lavalink node: connecting, `loadItem`, `playTrack`, `stopTrack`, `pause`, `unPause` and `destroy` are network calls. Playing is the `Dispatch` effect, and the node's answer to a load is a function parameter.
- Chat I/O: creating, deleting and editing messages, embed and button layout, and `respond` are not modelled. Message handles are opaque values; their new ids are parameters.
- Translations: the translated texts are not modelled. Replies are named by kind (`NowPlaying` with title and author, `NoVoiceChannel`).
- Event subscription: in `Runs`, each event is one invocation of one handler. The source registers a new track-end handler on every command (lines 142 and 228) and a new track-start handler every time a guild becomes active. `DuplicateHandlers` models several track-end handlers run one after another; duplicate track-start handlers and concurrent interleavings of handlers are not modelled.
- Session.PlayOrEnqueue: assumes that posting the placeholder (`createMessage`, line 52) and `playTrack` (line 122) succeed. A failed post is modelled in `PostFailure`. A failed `playTrack` is not: the head has already been removed (line 122), so the guild stays active with nothing playing, and later requests only append.
- Session.OnTrackEnd: assumes that `playTrack` (line 147) succeeds. The head is removed from the queue (line 146) before that call, so if it fails the track is lost, the guild stays active with nothing playing, no further track-end event arrives, and later requests only append.
- Session.OnTrackStart: assumes that fetching the channel, deleting the old control message and posting the new one (lines 61-63) succeed. If the delete fails, for instance because the message is already gone, or the post fails, the message map keeps the stale handle, and every later track start fails at the same delete.
- The track-end handler of `playfile` (lines 228-239) is the same code as the one of `play` and is modelled once, as `Session.OnTrackEnd`.
- Control-message buttons (pause/resume, next, stop, lines 88-115): these only forward to the node client. Stop destroys the node link without touching the maps.
- The order of effects inside one transition (the placeholder message is posted before the track is dispatched) is not modelled.
- Exceptions: `first()` on an empty playlist or search result throws. This is modelled as the `Failure` reply with the state unchanged. The `!!` assertions on guild and member are assumed to hold for guild commands.
- Node setup (`addNode` with hard-coded hosts) and the developer extension's stop command (an owner-id check followed by process exit) are process control, not queue logic.

## Findings

| source | as written | input that shows it | evidently intended | confidence | as-written member | corrected member |
|---|---|---|---|---|---|---|
| src/main/kotlin/HellBot/extensions/MusicExtension.kt:58-120 | The track-start embed names `track`, which resolves to the `track` parameter of the `playOrEnqueueSong` call that registered the handler. That is the first track of the session. | Request T1 on an idle guild, then request T2, then end T1: T2 is dispatched, and when it starts the control message announces T1. | The control message announces the track that actually started, as reported by the event. | medium, not executed (relies on Kotlin resolving a local before a member of the lambda's receiver) | CapturedTrack.OnTrackStartAsWritten, CapturedTrack.SecondTrackAnnouncedAsFirst | Session.OnTrackStart |
| src/main/kotlin/HellBot/extensions/MusicExtension.kt:48-56 | The queue entry is written (line 50) before the placeholder is posted (line 52), and the post is not guarded. | Request T on an idle guild and let the post fail: the guild keeps the entry `[T]`, has no control message and nothing is dispatched; request U with a successful post and U is only appended behind T, and nothing ever plays. | A failed post leaves the guild idle, as if the entry were written only after the placeholder exists, so the next request starts playback. | medium, not executed (depends on the chat call failing) | PostFailure.PlayOrEnqueueAsWritten, PostFailure.FailedPostWedgesGuild, PostFailure.FailedPostThenAppends | PostFailure.PlayOrEnqueueChecked, PostFailure.FailedPostRecovers |
| src/main/kotlin/HellBot/extensions/MusicExtension.kt:139-153 | Every run of `play` (and of `playfile`, lines 225-239) subscribes one more track-end handler to the guild's player, and each handler pops and dispatches the head of the queue. | Run `play` three times on an idle guild for T1, T2 and T3, then let T1 end: three handlers run, T2 is dispatched and at once replaced by T3, and the guild is torn down while T3 plays. | One track-end dispatches exactly the next track. | medium, not executed (assumes the handlers run one after another) | DuplicateHandlers.EndAsWritten, DuplicateHandlers.OneEndSkipsTrack | Session.OnTrackEnd, Runs.FifoDispatch |

=== FILE: captured_track.dfy ===
/** The track-start handler exactly as the extension registers it. The handler
    is a closure created inside `playOrEnqueueSong` when a guild becomes active,
    and the embed it posts names `track`, which resolves to that call's own
    parameter (a local wins over a member of the lambda's receiver). So every
    later track of the session is announced under the session's first track. */
module CapturedTrack {
  import opened Model
  import opened Session

  /** `captured` is the track of the play request that made the guild active;
      `started` is the track the node reports as started, which is ignored. */
  function OnTrackStartAsWritten(s: State, g: GuildId, captured: Track, started: Track, newId: Snowflake): (r: Step)
    ensures r.state == OnTrackStart(s, g, started, newId).state
    ensures g !in s.messages ==> r == Step(s, NoEffect)
    ensures g in s.messages ==> r.effect.Replace? && r.effect.nowPlaying == captured
    // it differs from the corrected handler only in the track it names
    ensures g in s.messages ==> r.effect == OnTrackStart(s, g, started, newId).effect.(nowPlaying := captured)
  {
    if g in s.messages then
      var current := s.messages[g];
      var posted := Message(current.channelId, newId);
      Step(State(s.queues, s.messages[g := posted]), Replace(current, posted, captured))
    else
      Step(s, NoEffect)
  }

  /** T1 makes the guild active and is captured by the handler, T2 queues
      behind it, the track-end dispatches T2, and when T2 starts the control
      message as written still names T1, where the corrected handler names T2. */
  lemma SecondTrackAnnouncedAsFirst(g: GuildId, t1: Track, t2: Track, reply: Message, id1: Snowflake, id2: Snowflake)
    requires t1 != t2
    ensures var a := PlayOrEnqueue(Initial, g, t1, reply, id1);
            var b := PlayOrEnqueue(a.state, g, t2, reply, id1);
            var c := OnTrackEnd(b.state, g);
            && a.effect == Dispatch(t1)
            && c.effect == Dispatch(t2)
            && OnTrackStartAsWritten(c.state, g, t1, t2, id2).effect.nowPlaying == t1
            && OnTrackStartAsWritten(c.state, g, t1, t2, id2).effect.nowPlaying != t2
            && OnTrackStart(c.state, g, t2, id2).effect.nowPlaying == t2
  {
  }
}

=== FILE: commands.dfy ===
/** The pure parts of the `play` and `playfile` slash commands: turning the
    user's query into what the node is asked to load, and turning the node's
    load result into at most one call of `PlayOrEnqueue`. */
module Commands {
  import opened Model
  import Session

  const HttpsScheme: string := "https://"
  const HttpScheme: string := "http://"
  const SearchPrefix: string := "ytsearch:"
  const NoMatchesText: string := "No matches found!"
  const LoadFailedText: string := "Failed to load track: "

  /** Kotlin's `String.startsWith`. */
  predicate StartsWith(s: string, prefix: string)
  {
    |prefix| <= |s| && s[..|prefix|] == prefix
  }

  predicate IsUrl(query: string)
  {
    StartsWith(query, HttpsScheme) || StartsWith(query, HttpScheme)
  }

  /** The string handed to the node: a URL as typed, anything else as a
      YouTube search. */
  function SearchQuery(query: string): (r: string)
    ensures IsUrl(query) ==> r == query
    ensures !IsUrl(query) ==> StartsWith(r, SearchPrefix) && r[|SearchPrefix|..] == query
    // a search is never mistaken for a URL, and a URL is never mistaken for a search
    ensures IsUrl(r) <==> IsUrl(query)
    ensures StartsWith(r, SearchPrefix) <==> !IsUrl(query)
  {
    if IsUrl(query) then
      UrlIsNotSearch(query);
      query
    else
      SearchIsNotUrl(query);
      SearchPrefix + query
  }

  /** Both schemes start with 'h' and the search prefix with 'y'. */
  lemma UrlIsNotSearch(s: string)
    requires IsUrl(s)
    ensures !StartsWith(s, SearchPrefix)
  {
    if StartsWith(s, HttpsScheme) {
      assert s[..|HttpsScheme|][0] == 'h';
    } else {
      assert s[..|HttpScheme|][0] == 'h';
    }
  }

  lemma SearchIsNotUrl(query: string)
    ensures !IsUrl(SearchPrefix + query)
    ensures StartsWith(SearchPrefix + query, SearchPrefix)
  {
    var r := SearchPrefix + query;
    assert r[..|SearchPrefix|] == SearchPrefix;
    assert r[0] == 'y';
  }

  /** Reads back the user's query from the string sent to the node. */
  function UserQuery(search: string): string
  {
    if StartsWith(search, SearchPrefix) then search[|SearchPrefix|..] else search
  }

  /** The user's query can always be read back from the string sent to the
      node. */
  lemma SearchQueryRoundTrip(query: string)
    ensures UserQuery(SearchQuery(query)) == query
  {
  }

  /** No two queries are sent to the node as the same string. */
  lemma SearchQueryInjective(a: string, b: string)
    ensures SearchQuery(a) == SearchQuery(b) ==> a == b
  {
  }

  /** The node's answer to a load request. */
  datatype LoadResult =
    | TrackLoaded(data: Track)
    | PlaylistLoaded(tracks: seq<Track>)
    | SearchResult(tracks: seq<Track>)
    | NoMatches
    | LoadFailed(message: string)

  /** Every track a load result carries, in the node's order. */
  function Carried(item: LoadResult): seq<Track>
  {
    match item
    case TrackLoaded(t) => [t]
    case PlaylistLoaded(ts) => ts
    case SearchResult(ts) => ts
    case NoMatches => []
    case LoadFailed(_) => []
  }

  /** The track the command plays: a loaded track itself, the first track of a
      playlist or search, and none when nothing matched or loading failed. An
      empty playlist or search also yields none (the command throws there). */
  function Selected(item: LoadResult): (r: Option<Track>)
    ensures r.Some? <==> Carried(item) != []
    ensures r.Some? ==> r.value == Carried(item)[0]
    ensures item.TrackLoaded? ==> r == Some(item.data)
  {
    match item
    case TrackLoaded(t) => Some(t)
    case PlaylistLoaded(ts) => if |ts| > 0 then Some(ts[0]) else None
    case SearchResult(ts) => if |ts| > 0 then Some(ts[0]) else None
    case NoMatches => None
    case LoadFailed(_) => None
  }

  /** What the user is told. `NowPlaying` is the translated play response
      naming the track; `Failure` stands for the exception that `first()`
      raises on an empty list. */
  datatype Reply =
    | NowPlaying(title: string, author: string)
    | Text(content: string)
    | NoVoiceChannel
    | Failure

  datatype Outcome = Outcome(state: State, effect: Effect, reply: Reply)

  /** What handling a load result promises: with no selected track the state is
      left alone; with one, the step is exactly the play request for that track
      (so it is dispatched or appended, the guild's balance is kept and no other
      guild changes), and the reply names it. */
  predicate Handles(s: State, g: GuildId, item: LoadResult, reply: Message, placeholderId: Snowflake, o: Outcome)
  {
    && (Selected(item).None? ==> o.state == s && o.effect == NoEffect)
    && (Selected(item).Some? ==>
          var t := Selected(item).value;
          && Step(o.state, o.effect) == Session.PlayOrEnqueue(s, g, t, reply, placeholderId)
          // consequences of the play request's contract, spelled out for readers
          && (o.effect == Dispatch(t) || o.effect == Append(t))
          && (o.effect.Dispatch? <==> g !in s.queues)
          && Dispatched(o.effect) + QueueOf(o.state, g) == QueueOf(s, g) + [t]
          && SameElsewhere(s, o.state, g)
          && o.reply == NowPlaying(t.info.title, t.info.author))
    && (item.NoMatches? ==> o.reply == Text(NoMatchesText))
    && (item.LoadFailed? ==> o.reply == Text(LoadFailedText + item.message))
    && ((item.PlaylistLoaded? || item.SearchResult?) && item.tracks == [] ==> o.reply == Failure)
  }

  /** The `when (item)` block shared by both commands. */
  function HandleLoad(s: State, g: GuildId, item: LoadResult, reply: Message, placeholderId: Snowflake): (o: Outcome)
    ensures Handles(s, g, item, reply, placeholderId, o)
    ensures Consistent(s) ==> Consistent(o.state)
  {
    match item
    case TrackLoaded(t) =>
      Play(s, g, t, reply, placeholderId)
    case PlaylistLoaded(ts) =>
      if |ts| > 0 then Play(s, g, ts[0], reply, placeholderId) else Outcome(s, NoEffect, Failure)
    case SearchResult(ts) =>
      if |ts| > 0 then Play(s, g, ts[0], reply, placeholderId) else Outcome(s, NoEffect, Failure)
    case NoMatches =>
      Outcome(s, NoEffect, Text(NoMatchesText))
    case LoadFailed(message) =>
      Outcome(s, NoEffect, Text(LoadFailedText + message))
  }

  function Play(s: State, g: GuildId, t: Track, reply: Message, placeholderId: Snowflake): Outcome
  {
    var step := Session.PlayOrEnqueue(s, g, t, reply, placeholderId);
    Outcome(step.state, step.effect, NowPlaying(t.info.title, t.info.author))
  }

  /** A command's outcome together with the string the node was asked to load. */
  datatype Command = Command(request: Option<string>, outcome: Outcome)

  /** The `play` command. `voice` is the caller's voice channel, `load` the
      node's `loadItem`, `reply` the command's response message. */
  function PlayCommand(s: State, g: GuildId, voice: Option<Snowflake>, query: string,
                       load: string -> LoadResult, reply: Message, placeholderId: Snowflake): (c: Command)
    ensures voice.None? ==> c == Command(None, Outcome(s, NoEffect, NoVoiceChannel))
    ensures voice.Some? ==>
              && c.request == Some(SearchQuery(query))
              && Handles(s, g, load(c.request.value), reply, placeholderId, c.outcome)
    ensures Consistent(s) ==> Consistent(c.outcome.state)
  {
    if voice.Some? then
      var search := SearchQuery(query);
      Command(Some(search), HandleLoad(s, g, load(search), reply, placeholderId))
    else
      Command(None, Outcome(s, NoEffect, NoVoiceChannel))
  }

  /** The `playfile` command: as `play`, but the attachment's URL is loaded
      as given, without the search prefix. */
  function PlayFileCommand(s: State, g: GuildId, voice: Option<Snowflake>, attachmentUrl: string,
                           load: string -> LoadResult, reply: Message, placeholderId: Snowflake): (c: Command)
    ensures voice.None? ==> c == Command(None, Outcome(s, NoEffect, NoVoiceChannel))
    ensures voice.Some? ==>
              && c.request == Some(attachmentUrl)
              && Handles(s, g, load(attachmentUrl), reply, placeholderId, c.outcome)
    ensures Consistent(s) ==> Consistent(c.outcome.state)
  {
    if voice.Some? then
      Command(Some(attachmentUrl), HandleLoad(s, g, load(attachmentUrl), reply, placeholderId))
    else
      Command(None, Outcome(s, NoEffect, NoVoiceChannel))
  }

  /** Only the first track of a playlist or search ever reaches the queue
      state: after the command, the guild's dispatched and waiting tracks are
      its earlier ones plus exactly that first track. */
  lemma OnlyFirstTrackPlays(s: State, g: GuildId, query: string, load: string -> LoadResult,
                            voice: Snowflake, reply: Message, placeholderId: Snowflake)
    requires |Carried(load(SearchQuery(query)))| > 1
    ensures var c := PlayCommand(s, g, Some(voice), query, load, reply, placeholderId);
            var ts := Carried(load(SearchQuery(query)));
            Dispatched(c.outcome.effect) + QueueOf(c.outcome.state, g) == QueueOf(s, g) + ts[..1]
  {
    var ts := Carried(load(SearchQuery(query)));
    var c := PlayCommand(s, g, Some(voice), query, load, reply, placeholderId);
    assert Selected(load(SearchQuery(query))) == Some(ts[0]);
    assert Dispatched(c.outcome.effect) + QueueOf(c.outcome.state, g) == QueueOf(s, g) + [ts[0]];
    assert ts[..1] == [ts[0]];
  }
}

=== FILE: duplicate_handlers.dfy ===
/** The track-end handler as the commands register it. Every run of `play`
    and `playfile` subscribes one more track-end handler to the guild's player,
    and the player outlives the guild's queue entry, so one track-end event
    runs the handler once for every command the guild has issued. Each run
    pops the head of the queue and dispatches it over the one dispatched
    before, so with several handlers one track-end skips tracks. */
module DuplicateHandlers {
  import opened Model
  import opened Session
  import opened Runs

  /** One track-end event with `handlers` subscribed handlers, run one after
      another. */
  function EndAsWritten(s: State, g: GuildId, handlers: nat): (r: Trace)
    ensures |r.outputs| == handlers
    // the handlers only ever take tracks from the queue, in order
    ensures DispatchesTo(g, r.outputs) + QueueOf(r.final, g) == QueueOf(s, g)
    ensures Consistent(s) ==> Consistent(r.final)
    // other guilds are never touched
    ensures SameElsewhere(s, r.final, g)
    // more handlers than waiting tracks: the last runs tear the guild down
    ensures g in s.queues && handlers > |s.queues[g]| ==> g !in r.final.queues && g !in r.final.messages
    // with a single subscription it is the handler itself
    ensures handlers == 1 ==>
              r == Trace(OnTrackEnd(s, g).state, [Output(g, OnTrackEnd(s, g).effect)])
  {
    var evs := Ends(g, handlers);
    Conservation(s, evs, g);
    EndsSubmitNothing(g, handlers);
    SingleEnd(s, g);
    EndsIsolate(s, g, handlers);
    EndsGuarded(s, g, handlers);
    Run(s, evs)
  }

  /** The facts about track-end runs that hold only under a condition. */
  lemma EndsGuarded(s: State, g: GuildId, n: nat)
    ensures Consistent(s) ==> Consistent(Run(s, Ends(g, n)).final)
    ensures g in s.queues && n > |s.queues[g]| ==>
              g !in Run(s, Ends(g, n)).final.queues && g !in Run(s, Ends(g, n)).final.messages
  {
    if Consistent(s) {
      RunPreservesConsistent(s, Ends(g, n));
    }
    if g in s.queues && n > |s.queues[g]| {
      EndsTearDown(s, g, n);
    }
  }

  /** Track-end runs for `g` leave every other guild's entries as they were. */
  lemma EndsIsolate(s: State, g: GuildId, n: nat)
    ensures SameElsewhere(s, Run(s, Ends(g, n)).final, g)
  {
    var f := Run(s, Ends(g, n)).final;
    forall h | h != g
      ensures (h in s.queues <==> h in f.queues) && (h in s.queues ==> s.queues[h] == f.queues[h])
      ensures (h in s.messages <==> h in f.messages) && (h in s.messages ==> s.messages[h] == f.messages[h])
    {
      RunIsolatesGuilds(s, Ends(g, n), g, h);
    }
    assert s.queues - {g} == f.queues - {g};
    assert s.messages - {g} == f.messages - {g};
  }

  /** With more track-end runs than waiting tracks, the guild ends up torn down. */
  lemma {:induction false} EndsTearDown(s: State, g: GuildId, n: nat)
    requires g in s.queues && n > |s.queues[g]|
    ensures g !in Run(s, Ends(g, n)).final.queues && g !in Run(s, Ends(g, n)).final.messages
    decreases n
  {
    var next := OnTrackEnd(s, g).state;
    EndsCons(s, g, n);
    if s.queues[g] != [] {
      EndsTearDown(next, g, n - 1);
    } else {
      EndsOnAbsent(next, g, n - 1);
    }
  }

  /** Track-end runs for a guild without entries change nothing. */
  lemma {:induction false} EndsOnAbsent(s: State, g: GuildId, n: nat)
    requires g !in s.queues
    ensures Run(s, Ends(g, n)).final == s
    decreases n
  {
    if n > 0 {
      EndsCons(s, g, n);
      EndsOnAbsent(s, g, n - 1);
    } else {
      assert Ends(g, 0) == [];
    }
  }

  lemma SingleEnd(s: State, g: GuildId)
    ensures Run(s, Ends(g, 1)) == Trace(OnTrackEnd(s, g).state, [Output(g, OnTrackEnd(s, g).effect)])
  {
    assert Ends(g, 1) == [Ended(g)] + [];
    RunCons(s, Ended(g), [], OnTrackEnd(s, g), Trace(OnTrackEnd(s, g).state, []));
  }

  /** Track-end events request nothing. */
  lemma {:induction false} EndsSubmitNothing(g: GuildId, n: nat)
    ensures SubmittedTo(g, Ends(g, n)) == []
    decreases n
  {
    if n > 0 {
      assert Ends(g, n)[1..] == Ends(g, n - 1);
      EndsSubmitNothing(g, n - 1);
    }
  }

  /** `b` is what remains of `a` after some tracks were taken off its front. */
  predicate IsSuffix(b: seq<Track>, a: seq<Track>)
  {
    |b| <= |a| && a[|a| - |b|..] == b
  }

  /** Track-ends, however many handlers run, never add a track to any guild's
      queue and never reorder one: every queue afterwards is what is left of
      it after removing tracks from its front. */
  lemma {:induction false} EndsOnlyShrinkQueues(s: State, g: GuildId, n: nat)
    ensures forall h :: IsSuffix(QueueOf(Run(s, Ends(g, n)).final, h), QueueOf(s, h))
    decreases n
  {
    if n == 0 {
      assert Ends(g, 0) == [];
      forall h
        ensures IsSuffix(QueueOf(s, h), QueueOf(s, h))
      {
        var q := QueueOf(s, h);
        assert q[|q| - |q|..] == q;
      }
    } else {
      var next := OnTrackEnd(s, g).state;
      var f := Run(next, Ends(g, n - 1)).final;
      EndsCons(s, g, n);
      EndsOnlyShrinkQueues(next, g, n - 1);
      forall h
        ensures IsSuffix(QueueOf(f, h), QueueOf(s, h))
      {
        EndShrinksQueue(s, g, h);
        SuffixTransitive(QueueOf(f, h), QueueOf(next, h), QueueOf(s, h));
      }
    }
  }

  /** `n` track-ends are one track-end followed by the other `n - 1`. */
  lemma EndsCons(s: State, g: GuildId, n: nat)
    requires n > 0
    ensures Run(s, Ends(g, n)).final == Run(OnTrackEnd(s, g).state, Ends(g, n - 1)).final
  {
    var step := OnTrackEnd(s, g);
    var rest := Ends(g, n - 1);
    assert Ends(g, n) == [Ended(g)] + rest;
    RunCons(s, Ended(g), rest, step, Run(step.state, rest));
  }

  /** One track-end leaves every queue a suffix of what it was. */
  lemma EndShrinksQueue(s: State, g: GuildId, h: GuildId)
    ensures IsSuffix(QueueOf(OnTrackEnd(s, g).state, h), QueueOf(s, h))
  {
    var r := OnTrackEnd(s, g);
    var q := QueueOf(s, h);
    if h == g {
      var d := Dispatched(r.effect);
      assert d + QueueOf(r.state, g) == q;
      assert q[|d|..] == QueueOf(r.state, g);
    } else {
      assert h in s.queues <==> h in (s.queues - {g});
      assert h in r.state.queues <==> h in (r.state.queues - {g});
      if h in s.queues {
        assert (s.queues - {g})[h] == s.queues[h];
        assert (r.state.queues - {g})[h] == r.state.queues[h];
      }
      assert QueueOf(r.state, h) == q;
      assert q[|q| - |q|..] == q;
    }
  }

  lemma SuffixTransitive(c: seq<Track>, b: seq<Track>, a: seq<Track>)
    requires IsSuffix(c, b) && IsSuffix(b, a)
    ensures IsSuffix(c, a)
  {
    assert a[|a| - |b|..][|b| - |c|..] == a[|a| - |c|..];
  }

  /** Three `play` commands on an idle guild request T1, T2 and T3 and leave
      three track-end handlers. When T1 ends, as written, T2 is dispatched and
      at once replaced by T3, and the guild is torn down while T3 plays; the
      single handler dispatches T2 and keeps T3 waiting. */
  lemma OneEndSkipsTrack(g: GuildId, t1: Track, t2: Track, t3: Track, reply: Message, id: Snowflake)
    ensures var s := Run(Initial, Plays(g, [t1, t2, t3], reply, id)).final;
            var asWritten := EndAsWritten(s, g, 3);
            var intended := OnTrackEnd(s, g);
            && asWritten.outputs == [Output(g, Dispatch(t2)), Output(g, Dispatch(t3)), Output(g, Teardown)]
            && g !in asWritten.final.queues && g !in asWritten.final.messages
            && intended.effect == Dispatch(t2)
            && g in intended.state.queues && intended.state.queues[g] == [t3]
  {
    var s := Run(Initial, Plays(g, [t1, t2, t3], reply, id)).final;
    IdlePlays(Initial, g, [t1, t2, t3], reply, id);
    assert [t1, t2, t3][1..] == [t2, t3];
    assert s.queues[g] == [t2, t3];
    EndsDrain(s, g);
    var r := Run(s, Ends(g, 3));
    assert r.outputs[0] == Output(g, Dispatch(t2));
    assert r.outputs[1] == Output(g, Dispatch(t3));
    assert [t2, t3][1..] == [t3];
  }
}

=== FILE: model.dfy ===
/** Data model of the per-guild play queue kept by the music extension.
    The extension holds two mutable maps keyed by guild id: one from the guild
    to its deque of pending tracks, one from the guild to the chat message that
    currently serves as its control surface. Here both are immutable maps and
    every transition returns a new state. */
module Model {

  datatype Option<+T> = None | Some(value: T)

  /** Discord snowflakes (guild, channel and message ids) are unsigned 64-bit values. */
  newtype Snowflake = x: int | 0 <= x < 0x1_0000_0000_0000_0000

  type GuildId = Snowflake

  /** The node's descriptor of a playable item. The model never looks inside it:
      `encoded` is the handle the node needs to start playback. */
  datatype TrackInfo = TrackInfo(title: string, author: string, artworkUrl: Option<string>)
  datatype Track = Track(encoded: string, info: TrackInfo)

  /** A handle on a chat message: the channel it lives in and its own id. */
  datatype Message = Message(channelId: Snowflake, id: Snowflake)

  /** The two maps of the extension. A guild is "active" when it has a queue entry. */
  datatype State = State(queues: map<GuildId, seq<Track>>, messages: map<GuildId, Message>)

  /** The state at start-up: no guild has an entry. */
  const Initial: State := State(map[], map[])

  /** What one transition asks of the outside world, besides the new maps. */
  datatype Effect =
    | Dispatch(track: Track)                          // the node is told to play `track`
    | Append(track: Track)                            // `track` is added to the back of the queue
    | Teardown                                        // the guild's entries are dropped
    | Replace(deleted: Message, posted: Message, nowPlaying: Track)  // control message deleted and re-posted
    | NoEffect

  datatype Step = Step(state: State, effect: Effect)

  /** The guild's pending tracks; a guild without an entry has none. */
  function QueueOf(s: State, g: GuildId): seq<Track>
  {
    if g in s.queues then s.queues[g] else []
  }

  /** The tracks an effect hands to the node: one for a dispatch, none otherwise. */
  function Dispatched(e: Effect): seq<Track>
  {
    if e.Dispatch? then [e.track] else []
  }

  /** Both maps are created and torn down together, so they have the same guilds. */
  predicate Consistent(s: State)
  {
    s.queues.Keys == s.messages.Keys
  }

  /** Every guild other than `g` has the same entries in `s` and `s'`. */
  predicate SameElsewhere(s: State, s': State, g: GuildId)
  {
    && s'.queues - {g} == s.queues - {g}
    && s'.messages - {g} == s.messages - {g}
  }
}

=== FILE: post_failure.dfy ===
/** `playOrEnqueueSong` when posting the placeholder control message fails.
    The guild's queue entry is written before the placeholder is posted, so a
    failed post leaves the guild with a queue entry, no control message and no
    track dispatched. From then on every play request only appends, and since
    nothing plays, no track-end event ever comes to drain the queue. */
module PostFailure {
  import opened Model
  import opened Session
  import opened Runs

  /** The play request as written. `posted` is the outcome of posting the
      placeholder, which is only attempted for a guild without an entry:
      `None` when the post fails, otherwise the id the platform gives it. */
  function PlayOrEnqueueAsWritten(s: State, g: GuildId, t: Track, reply: Message, posted: Option<Snowflake>): (r: Step)
    ensures posted.Some? ==> r == PlayOrEnqueue(s, g, t, reply, posted.value)
    // an active guild posts nothing: whatever `posted` says, it is the normal append
    ensures g in s.queues ==> r == PlayOrEnqueue(s, g, t, reply, 0)
    ensures g in s.queues ==>
              && r.effect == Append(t)
              && g in r.state.queues && r.state.queues[g] == s.queues[g] + [t]
              && r.state.messages == s.messages
    // a failed post: the queue entry holding `t` stays, nothing is dispatched
    ensures g !in s.queues && posted.None? ==>
              && r.effect == NoEffect
              && r.state.queues == s.queues[g := [t]]
              && r.state.messages == s.messages
  {
    if g !in s.queues && posted.None? then
      Step(State(s.queues[g := [t]], s.messages), NoEffect)
    else
      PlayOrEnqueue(s, g, t, reply, if posted.Some? then posted.value else 0)
  }

  /** After a failed post on an idle guild, the queue and message maps disagree,
      and any later series of play requests dispatches nothing: each track is
      appended behind the one that was never played. */
  lemma FailedPostWedgesGuild(s: State, g: GuildId, t: Track, reply: Message, ts: seq<Track>, id: Snowflake)
    requires Consistent(s) && g !in s.queues
    ensures var w := PlayOrEnqueueAsWritten(s, g, t, reply, None);
            var r := Run(w.state, Plays(g, ts, reply, id));
            && w.effect == NoEffect
            && !Consistent(w.state)
            && DispatchesTo(g, r.outputs) == []
            && g in r.final.queues && r.final.queues[g] == [t] + ts
  {
    var w := PlayOrEnqueueAsWritten(s, g, t, reply, None);
    assert g in w.state.queues.Keys && g !in w.state.messages.Keys;
    ActivePlaysQueue(w.state, g, ts, reply, id);
    ActivePlaysOutputs(w.state, g, ts, reply, id);
    var r := Run(w.state, Plays(g, ts, reply, id));
    AppendsDispatchNothing(g, ts, r.outputs);
  }

  /** Outputs that only append dispatch nothing. */
  lemma {:induction false} AppendsDispatchNothing(g: GuildId, ts: seq<Track>, outs: seq<Output>)
    requires |outs| == |ts|
    requires forall i :: 0 <= i < |ts| ==> outs[i] == Output(g, Append(ts[i]))
    ensures DispatchesTo(g, outs) == []
    decreases |outs|
  {
    if outs != [] {
      AppendsDispatchNothing(g, ts[1..], outs[1..]);
    }
  }

  /** The play request as evidently intended: a failed post leaves the state as
      it was, as if the queue entry were only written once the placeholder
      exists. */
  function PlayOrEnqueueChecked(s: State, g: GuildId, t: Track, reply: Message, posted: Option<Snowflake>): (r: Step)
    ensures posted.Some? ==> r == PlayOrEnqueue(s, g, t, reply, posted.value)
    ensures g !in s.queues && posted.None? ==> r == Step(s, NoEffect)
    ensures g in s.queues ==> r == PlayOrEnqueue(s, g, t, reply, 0)
    ensures g in s.queues ==> r.effect == Append(t)
    ensures Consistent(s) ==> Consistent(r.state)
  {
    if g !in s.queues && posted.None? then
      Step(s, NoEffect)
    else
      PlayOrEnqueue(s, g, t, reply, if posted.Some? then posted.value else 0)
  }

  /** With the guard, a failed post does not wedge the guild: the next request
      whose placeholder is posted starts playback of its own track at once. */
  lemma FailedPostRecovers(s: State, g: GuildId, t: Track, u: Track, reply: Message, id: Snowflake)
    requires g !in s.queues
    ensures var a := PlayOrEnqueueChecked(s, g, t, reply, None);
            var b := PlayOrEnqueueChecked(a.state, g, u, reply, Some(id));
            && a.effect == NoEffect
            && b.effect == Dispatch(u)
            && g in b.state.queues && b.state.queues[g] == []
  {
  }

  /** The same two requests as written: the second one only appends. */
  lemma FailedPostThenAppends(s: State, g: GuildId, t: Track, u: Track, reply: Message, id: Snowflake)
    requires g !in s.queues
    ensures var a := PlayOrEnqueueAsWritten(s, g, t, reply, None);
            var b := PlayOrEnqueueAsWritten(a.state, g, u, reply, Some(id));
            && a.effect == NoEffect
            && b.effect == Append(u)
            && g in b.state.queues && b.state.queues[g] == [t, u]
  {
  }
}

=== FILE: runs.dfy ===
/** Runs: any sequence of play requests and node events, over any guilds,
    applied one after another to the queue state. */
module Runs {
  import opened Model
  import opened Session

  datatype Event =
    | Play(guild: GuildId, track: Track, reply: Message, placeholderId: Snowflake)
    | Started(guild: GuildId, track: Track, newId: Snowflake)
    | Ended(guild: GuildId)

  /** An effect, tagged with the guild whose event caused it. */
  datatype Output = Output(guild: GuildId, effect: Effect)

  datatype Trace = Trace(final: State, outputs: seq<Output>)

  function Apply(s: State, e: Event): Step
  {
    match e
    case Play(g, t, reply, id) => PlayOrEnqueue(s, g, t, reply, id)
    case Started(g, t, id) => OnTrackStart(s, g, t, id)
    case Ended(g) => OnTrackEnd(s, g)
  }

  function Run(s: State, evs: seq<Event>): (r: Trace)
    ensures |r.outputs| == |evs|
    decreases |evs|
  {
    if evs == [] then Trace(s, [])
    else
      var step := Apply(s, evs[0]);
      var rest := Run(step.state, evs[1..]);
      Trace(rest.final, [Output(evs[0].guild, step.effect)] + rest.outputs)
  }

  /** The tracks dispatched for guild `g`, in order. */
  function DispatchesTo(g: GuildId, outs: seq<Output>): seq<Track>
  {
    if outs == [] then [] else DispatchedFor(g, outs[0]) + DispatchesTo(g, outs[1..])
  }

  /** The tracks requested for guild `g`, in order. */
  function SubmittedTo(g: GuildId, evs: seq<Event>): seq<Track>
  {
    if evs == [] then [] else SubmittedFor(g, evs[0]) + SubmittedTo(g, evs[1..])
  }

  /** The share of one output in `DispatchesTo`. */
  function DispatchedFor(g: GuildId, o: Output): seq<Track>
  {
    if o.guild == g then Dispatched(o.effect) else []
  }

  /** The share of one event in `SubmittedTo`. */
  function SubmittedFor(g: GuildId, e: Event): seq<Track>
  {
    if e.Play? && e.guild == g then [e.track] else []
  }

  /** One event keeps the balance of guild `g`. */
  lemma ApplyConserves(s: State, e: Event, g: GuildId)
    ensures var step := Apply(s, e);
            DispatchedFor(g, Output(e.guild, step.effect)) + QueueOf(step.state, g)
            == QueueOf(s, g) + SubmittedFor(g, e)
  {
  }

  lemma RunUnfold(s: State, evs: seq<Event>, g: GuildId)
    requires evs != []
    ensures var step := Apply(s, evs[0]);
            var rest := Run(step.state, evs[1..]);
            && Run(s, evs).final == rest.final
            && DispatchesTo(g, Run(s, evs).outputs)
               == DispatchedFor(g, Output(evs[0].guild, step.effect)) + DispatchesTo(g, rest.outputs)
            && SubmittedTo(g, evs) == SubmittedFor(g, evs[0]) + SubmittedTo(g, evs[1..])
  {
    var step := Apply(s, evs[0]);
    var rest := Run(step.state, evs[1..]);
    var outs := [Output(evs[0].guild, step.effect)] + rest.outputs;
    assert Run(s, evs).outputs == outs;
    assert outs[1..] == rest.outputs;
  }

  /** Over any run, for every guild, the tracks dispatched followed by the
      tracks still waiting are exactly the tracks that were waiting followed by
      the tracks requested: nothing is dropped, duplicated or reordered. */
  lemma {:induction false} Conservation(s: State, evs: seq<Event>, g: GuildId)
    ensures var r := Run(s, evs);
            DispatchesTo(g, r.outputs) + QueueOf(r.final, g) == QueueOf(s, g) + SubmittedTo(g, evs)
    decreases |evs|
  {
    if evs != [] {
      var e := evs[0];
      var step := Apply(s, e);
      var rest := Run(step.state, evs[1..]);
      var a := DispatchedFor(g, Output(e.guild, step.effect));
      var b := SubmittedFor(g, e);
      RunUnfold(s, evs, g);
      ApplyConserves(s, e, g);
      Conservation(step.state, evs[1..], g);
      var whole := Run(s, evs);
      var d0 := DispatchesTo(g, rest.outputs);
      var q0 := QueueOf(step.state, g);
      var sub0 := SubmittedTo(g, evs[1..]);
      assert DispatchesTo(g, whole.outputs) == a + d0;
      assert whole.final == rest.final;
      assert d0 + QueueOf(rest.final, g) == q0 + sub0;
      assert a + q0 == QueueOf(s, g) + b;
      assert SubmittedTo(g, evs) == b + sub0;
      SeqRearrange(a, d0, QueueOf(rest.final, g), q0, sub0, QueueOf(s, g), b);
    }
  }

  /** The associativity step of `Conservation`, kept apart so that the
      solver sees only sequences. */
  lemma SeqRearrange<T>(a: seq<T>, d: seq<T>, f: seq<T>, q: seq<T>, sub: seq<T>, q0: seq<T>, b: seq<T>)
    requires d + f == q + sub
    requires a + q == q0 + b
    ensures (a + d) + f == q0 + (b + sub)
  {
    calc {
      (a + d) + f;
      a + (d + f);
      a + (q + sub);
      (a + q) + sub;
      (q0 + b) + sub;
    }
  }

  /** FIFO: what a guild has had dispatched is always a prefix of what was
      waiting followed by what was requested, in request order. */
  lemma FifoDispatch(s: State, evs: seq<Event>, g: GuildId)
    ensures var d := DispatchesTo(g, Run(s, evs).outputs);
            var all := QueueOf(s, g) + SubmittedTo(g, evs);
            |d| <= |all| && d == all[..|d|]
  {
    var r := Run(s, evs);
    Conservation(s, evs, g);
    var d := DispatchesTo(g, r.outputs);
    assert (d + QueueOf(r.final, g))[..|d|] == d;
  }

  /** The queue map and the message map keep the same guilds over any run. */
  lemma {:induction false} RunPreservesConsistent(s: State, evs: seq<Event>)
    requires Consistent(s)
    ensures Consistent(Run(s, evs).final)
    decreases |evs|
  {
    if evs != [] {
      RunPreservesConsistent(Apply(s, evs[0]).state, evs[1..]);
    }
  }

  /** A guild's events never change another guild's entries. */
  lemma {:induction false} RunIsolatesGuilds(s: State, evs: seq<Event>, g: GuildId, h: GuildId)
    requires h != g
    requires forall i :: 0 <= i < |evs| ==> evs[i].guild == g
    ensures h in Run(s, evs).final.queues <==> h in s.queues
    ensures h in s.queues ==> Run(s, evs).final.queues[h] == s.queues[h]
    ensures h in Run(s, evs).final.messages <==> h in s.messages
    ensures h in s.messages ==> Run(s, evs).final.messages[h] == s.messages[h]
    decreases |evs|
  {
    if evs != [] {
      var s1 := Apply(s, evs[0]).state;
      assert SameElsewhere(s, s1, g);
      assert h in s1.queues <==> h in s1.queues - {g};
      assert h in s.queues <==> h in s.queues - {g};
      assert h in s1.messages <==> h in s1.messages - {g};
      assert h in s.messages <==> h in s.messages - {g};
      if h in s.queues {
        assert (s1.queues - {g})[h] == (s.queues - {g})[h];
      }
      if h in s.messages {
        assert (s1.messages - {g})[h] == (s.messages - {g})[h];
      }
      RunIsolatesGuilds(s1, evs[1..], g, h);
    }
  }

  /** Play requests for one guild, all answered by the same reply message. */
  function Plays(g: GuildId, ts: seq<Track>, reply: Message, id: Snowflake): (evs: seq<Event>)
    ensures |evs| == |ts|
    ensures forall i :: 0 <= i < |ts| ==> evs[i] == Play(g, ts[i], reply, id)
  {
    if ts == [] then [] else [Play(g, ts[0], reply, id)] + Plays(g, ts[1..], reply, id)
  }

  /** `n` track-end events for one guild. */
  function Ends(g: GuildId, n: nat): (evs: seq<Event>)
    ensures |evs| == n
    ensures forall i :: 0 <= i < n ==> evs[i] == Ended(g)
  {
    if n == 0 then [] else [Ended(g)] + Ends(g, n - 1)
  }

  /** While a guild is active, every play request appends, in call order: the
      tracks join the back of the queue and the control message stays. */
  lemma {:induction false} ActivePlaysQueue(s: State, g: GuildId, ts: seq<Track>, reply: Message, id: Snowflake)
    requires g in s.queues
    ensures var r := Run(s, Plays(g, ts, reply, id));
            && g in r.final.queues
            && r.final.queues[g] == s.queues[g] + ts
            && r.final.messages == s.messages
    decreases |ts|
  {
    if ts == [] {
      assert s.queues[g] + ts == s.queues[g];
    } else {
      var step := PlayOrEnqueue(s, g, ts[0], reply, id);
      ActivePlaysQueue(step.state, g, ts[1..], reply, id);
      PlaysCons(s, g, ts, reply, id);
      AppendHead(s.queues[g], ts);
    }
  }

  /** While a guild is active, each play request is answered by appending its
      own track, and nothing is dispatched. */
  lemma {:induction false} ActivePlaysOutputs(s: State, g: GuildId, ts: seq<Track>, reply: Message, id: Snowflake)
    requires g in s.queues
    ensures var r := Run(s, Plays(g, ts, reply, id));
            forall i :: 0 <= i < |ts| ==> r.outputs[i] == Output(g, Append(ts[i]))
    decreases |ts|
  {
    if ts != [] {
      var step := PlayOrEnqueue(s, g, ts[0], reply, id);
      ActivePlaysOutputs(step.state, g, ts[1..], reply, id);
      PlaysCons(s, g, ts, reply, id);
      AppendOutputs(g, ts, Run(step.state, Plays(g, ts[1..], reply, id)).outputs);
    }
  }

  /** A run of play requests is its first request followed by the rest. */
  lemma PlaysCons(s: State, g: GuildId, ts: seq<Track>, reply: Message, id: Snowflake)
    requires ts != []
    ensures var step := PlayOrEnqueue(s, g, ts[0], reply, id);
            var tail := Run(step.state, Plays(g, ts[1..], reply, id));
            Run(s, Plays(g, ts, reply, id)) == Trace(tail.final, [Output(g, step.effect)] + tail.outputs)
  {
    var e := Play(g, ts[0], reply, id);
    var rest := Plays(g, ts[1..], reply, id);
    var step := PlayOrEnqueue(s, g, ts[0], reply, id);
    assert Plays(g, ts, reply, id) == [e] + rest;
    RunCons(s, e, rest, step, Run(step.state, rest));
  }

  lemma AppendHead<T>(q: seq<T>, ts: seq<T>)
    requires ts != []
    ensures (q + [ts[0]]) + ts[1..] == q + ts
  {
    assert [ts[0]] + ts[1..] == ts;
  }

  /** The outputs of appending `ts[0]` followed by those of appending the rest. */
  lemma AppendOutputs(g: GuildId, ts: seq<Track>, tail: seq<Output>)
    requires ts != [] && |tail| == |ts| - 1
    requires forall i :: 0 <= i < |ts| - 1 ==> tail[i] == Output(g, Append(ts[1..][i]))
    ensures var outs := [Output(g, Append(ts[0]))] + tail;
            forall i :: 0 <= i < |ts| ==> outs[i] == Output(g, Append(ts[i]))
  {
  }

  /** An idle guild: the first request starts playback at once and leaves the
      queue empty; every later request appends, in call order. */
  lemma IdlePlays(s: State, g: GuildId, ts: seq<Track>, reply: Message, id: Snowflake)
    requires g !in s.queues
    requires ts != []
    ensures var r := Run(s, Plays(g, ts, reply, id));
            && r.outputs[0] == Output(g, Dispatch(ts[0]))
            && (forall i :: 1 <= i < |ts| ==> r.outputs[i] == Output(g, Append(ts[i])))
            && g in r.final.queues && r.final.queues[g] == ts[1..]
  {
    var evs := Plays(g, ts, reply, id);
    var s1 := PlayOrEnqueue(s, g, ts[0], reply, id).state;
    assert evs[1..] == Plays(g, ts[1..], reply, id);
    ActivePlaysQueue(s1, g, ts[1..], reply, id);
    ActivePlaysOutputs(s1, g, ts[1..], reply, id);
  }

  /** Track-ends drain an active guild's queue head first, and the one after
      the last dispatch tears the guild down. */
  lemma {:induction false} EndsDrain(s: State, g: GuildId)
    requires g in s.queues
    ensures var n := |s.queues[g]|;
            var r := Run(s, Ends(g, n + 1));
            && (forall i :: 0 <= i < n ==> r.outputs[i] == Output(g, Dispatch(s.queues[g][i])))
            && r.outputs[n] == Output(g, Teardown)
            && g !in r.final.queues && g !in r.final.messages
    decreases |s.queues[g]|
  {
    var q := s.queues[g];
    var n := |q|;
    var evs := Ends(g, n + 1);
    assert evs[1..] == Ends(g, n);
    if n > 0 {
      var s1 := OnTrackEnd(s, g).state;
      assert s1.queues[g] == q[1..];
      EndsDrain(s1, g);
      var r1 := Run(s1, Ends(g, n));
      assert Run(s, evs).outputs == [Output(g, Dispatch(q[0]))] + r1.outputs;
    }
  }

  lemma RunCons(s: State, e: Event, rest: seq<Event>, next: Step, tail: Trace)
    requires next == Apply(s, e)
    requires tail == Run(next.state, rest)
    ensures Run(s, [e] + rest) == Trace(tail.final, [Output(e.guild, next.effect)] + tail.outputs)
  {
    assert ([e] + rest)[0] == e;
    assert ([e] + rest)[1..] == rest;
  }

  /** The walkthrough of a guild's whole session: T1 starts playback on an idle
      guild and is announced, T2 and T3 queue behind it, three track-ends
      dispatch T2 then T3 and finally tear the guild down. */
  lemma Walkthrough(g: GuildId, t1: Track, t2: Track, t3: Track, reply: Message, id1: Snowflake, id2: Snowflake)
    ensures var r := Run(Initial, [Play(g, t1, reply, id1), Started(g, t1, id2), Play(g, t2, reply, id1),
                                   Play(g, t3, reply, id1), Ended(g), Ended(g), Ended(g)]);
            && r.outputs == [Output(g, Dispatch(t1)),
                             Output(g, Replace(Message(reply.channelId, id1), Message(reply.channelId, id2), t1)),
                             Output(g, Append(t2)), Output(g, Append(t3)),
                             Output(g, Dispatch(t2)), Output(g, Dispatch(t3)), Output(g, Teardown)]
            && r.final == Initial
  {
    var placeholder := Message(reply.channelId, id1);
    var announced := Message(reply.channelId, id2);
    var s1 := State(map[g := []], map[g := placeholder]);
    var s2 := State(map[g := []], map[g := announced]);
    var e2 := [Play(g, t2, reply, id1)] + [Play(g, t3, reply, id1), Ended(g), Ended(g), Ended(g)];
    var e1 := [Started(g, t1, id2)] + e2;
    var e0 := [Play(g, t1, reply, id1)] + e1;
    assert e0 == [Play(g, t1, reply, id1), Started(g, t1, id2), Play(g, t2, reply, id1),
                  Play(g, t3, reply, id1), Ended(g), Ended(g), Ended(g)];
    var r2 := Trace(Initial, [Output(g, Append(t2))] + [Output(g, Append(t3)), Output(g, Dispatch(t2)),
                                                         Output(g, Dispatch(t3)), Output(g, Teardown)]);
    WalkthroughQueue(g, t2, t3, reply, id1, announced);
    var r1 := Trace(Initial, [Output(g, Replace(placeholder, announced, t1))] + r2.outputs);
    assert Apply(s1, Started(g, t1, id2)) == Step(s2, Replace(placeholder, announced, t1));
    RunCons(s1, Started(g, t1, id2), e2, Step(s2, Replace(placeholder, announced, t1)), r2);
    StepPlay(Initial, g, t1, reply, id1, Step(s1, Dispatch(t1)));
    RunCons(Initial, Play(g, t1, reply, id1), e1, Step(s1, Dispatch(t1)), r1);
  }

  /** The middle of the walkthrough: T2 and T3 queue behind the playing track,
      then the three track-ends. */
  lemma WalkthroughQueue(g: GuildId, t2: Track, t3: Track, reply: Message, id: Snowflake, announced: Message)
    ensures Run(State(map[g := []], map[g := announced]),
                [Play(g, t2, reply, id)] + [Play(g, t3, reply, id), Ended(g), Ended(g), Ended(g)])
            == Trace(Initial, [Output(g, Append(t2))] + [Output(g, Append(t3)), Output(g, Dispatch(t2)),
                                                          Output(g, Dispatch(t3)), Output(g, Teardown)])
  {
    var s2 := State(map[g := []], map[g := announced]);
    var s3 := State(map[g := [t2]], map[g := announced]);
    var e3 := [Play(g, t3, reply, id)] + [Ended(g), Ended(g), Ended(g)];
    var r3 := Trace(Initial, [Output(g, Append(t3))] + [Output(g, Dispatch(t2)), Output(g, Dispatch(t3)), Output(g, Teardown)]);
    StepPlay(s2, g, t2, reply, id, Step(s3, Append(t2))) by {
      assert [] + [t2] == [t2];
    }
    WalkthroughSecondAppend(g, t2, t3, reply, id, announced);
    RunCons(s2, Play(g, t2, reply, id), e3, Step(s3, Append(t2)), r3);
  }

  /** T3 queues behind T2, then the three track-ends. */
  lemma WalkthroughSecondAppend(g: GuildId, t2: Track, t3: Track, reply: Message, id: Snowflake, announced: Message)
    ensures Run(State(map[g := [t2]], map[g := announced]),
                [Play(g, t3, reply, id)] + [Ended(g), Ended(g), Ended(g)])
            == Trace(Initial, [Output(g, Append(t3))] + [Output(g, Dispatch(t2)), Output(g, Dispatch(t3)), Output(g, Teardown)])
  {
    var s3 := State(map[g := [t2]], map[g := announced]);
    var s4 := State(map[g := [t2, t3]], map[g := announced]);
    var e4 := [Ended(g)] + [Ended(g), Ended(g)];
    var r4 := Trace(Initial, [Output(g, Dispatch(t2))] + [Output(g, Dispatch(t3)), Output(g, Teardown)]);
    StepPlay(s3, g, t3, reply, id, Step(s4, Append(t3))) by {
      assert [t2] + [t3] == [t2, t3];
    }
    WalkthroughEnds(g, t2, t3, announced);
    RunCons(s3, Play(g, t3, reply, id), e4, Step(s4, Append(t3)), r4);
  }

  /** The last three events of the walkthrough: the queue [T2, T3] drains and
      the guild is torn down. */
  lemma WalkthroughEnds(g: GuildId, t2: Track, t3: Track, announced: Message)
    ensures Run(State(map[g := [t2, t3]], map[g := announced]), [Ended(g)] + [Ended(g), Ended(g)])
            == Trace(Initial, [Output(g, Dispatch(t2))] + [Output(g, Dispatch(t3)), Output(g, Teardown)])
  {
    var s4 := State(map[g := [t2, t3]], map[g := announced]);
    var s5 := State(map[g := [t3]], map[g := announced]);
    var s6 := State(map[g := []], map[g := announced]);
    var e7: seq<Event> := [];
    var e6 := [Ended(g)] + e7;
    var e5 := [Ended(g)] + e6;
    assert e5 == [Ended(g), Ended(g)];
    var r7 := Trace(Initial, []);
    var r6 := Trace(Initial, [Output(g, Teardown)] + r7.outputs);
    StepEnd(s6, g, Step(Initial, Teardown));
    RunCons(s6, Ended(g), e7, Step(Initial, Teardown), r7);
    var r5 := Trace(Initial, [Output(g, Dispatch(t3))] + r6.outputs);
    assert r5.outputs == [Output(g, Dispatch(t3)), Output(g, Teardown)];
    StepEnd(s5, g, Step(s6, Dispatch(t3))) by {
      assert [t3][1..] == [];
    }
    RunCons(s5, Ended(g), e6, Step(s6, Dispatch(t3)), r6);
    StepEnd(s4, g, Step(s5, Dispatch(t2))) by {
      assert [t2, t3][1..] == [t3];
    }
    RunCons(s4, Ended(g), e5, Step(s5, Dispatch(t2)), r5);
  }

  /** One play request on a one-guild state, read off its contract. */
  lemma StepPlay(s: State, g: GuildId, t: Track, reply: Message, id: Snowflake, expected: Step)
    requires s.queues.Keys <= {g} && s.messages.Keys == s.queues.Keys
    requires expected.effect == Dispatch(t) || expected.effect == Append(t)
    requires g in s.queues ==> expected == Step(State(map[g := s.queues[g] + [t]], s.messages), Append(t))
    requires g !in s.queues ==> expected == Step(State(map[g := []], map[g := Message(reply.channelId, id)]), Dispatch(t))
    ensures Apply(s, Play(g, t, reply, id)) == expected
  {
    var r := PlayOrEnqueue(s, g, t, reply, id);
    assert r.state.queues.Keys == {g};
    assert r.state.messages.Keys == {g};
    if g !in s.queues {
      assert s.queues == map[] && s.messages == map[];
    }
  }

  /** One track-end on a one-guild state, read off its contract. */
  lemma StepEnd(s: State, g: GuildId, expected: Step)
    requires s.queues.Keys == {g} && s.messages.Keys == {g}
    requires s.queues[g] != [] ==>
               expected == Step(State(map[g := s.queues[g][1..]], s.messages), Dispatch(s.queues[g][0]))
    requires s.queues[g] == [] ==> expected == Step(Initial, Teardown)
    ensures Apply(s, Ended(g)) == expected
  {
    var r := OnTrackEnd(s, g);
    if s.queues[g] != [] {
      assert r.state.queues.Keys == {g};
    } else {
      assert r.state.queues.Keys == {};
      assert r.state.messages.Keys == {};
    }
  }
}

=== FILE: session.dfy ===
/** The three transitions of a guild's play queue: a play request, the node's
    track-end event and the node's track-start event. */
module Session {
  import opened Model

  /** `playOrEnqueueSong`. A guild without an entry gets a fresh queue holding
      `t`, a placeholder control message posted in the channel of `reply`, and
      `t` is taken straight back off the queue and dispatched. A guild that has
      an entry gets `t` appended to its queue and nothing is dispatched.
      `placeholderId` is the id the chat platform gives the placeholder. */
  function PlayOrEnqueue(s: State, g: GuildId, t: Track, reply: Message, placeholderId: Snowflake): (r: Step)
    // exactly one of dispatch and append, and it concerns `t`
    ensures r.effect == Dispatch(t) || r.effect == Append(t)
    ensures r.effect.Dispatch? <==> g !in s.queues
    // an absent guild becomes active with an empty queue and a control message
    ensures g !in s.queues ==>
              && g in r.state.queues && r.state.queues[g] == []
              && g in r.state.messages && r.state.messages[g] == Message(reply.channelId, placeholderId)
    // a present guild keeps its control message and gets `t` at the back
    ensures g in s.queues ==>
              && g in r.state.queues && r.state.queues[g] == s.queues[g] + [t]
              && r.state.messages == s.messages
    // nothing is lost or duplicated: what is dispatched plus what waits is what waited plus `t`
    ensures Dispatched(r.effect) + QueueOf(r.state, g) == QueueOf(s, g) + [t]
    ensures SameElsewhere(s, r.state, g)
    ensures Consistent(s) ==> Consistent(r.state)
  {
    if g !in s.queues then
      var created := [t];
      var placeholder := Message(reply.channelId, placeholderId);
      var head, rest := created[0], created[1..];
      Step(State(s.queues[g := rest], s.messages[g := placeholder]), Dispatch(head))
    else
      Step(State(s.queues[g := s.queues[g] + [t]], s.messages), Append(t))
  }

  /** The track-end handler. A guild with pending tracks has its head removed
      and dispatched; a guild with an empty queue loses both its queue entry and
      its control-message entry; a guild without an entry is left alone. */
  function OnTrackEnd(s: State, g: GuildId): (r: Step)
    ensures g !in s.queues ==> r == Step(s, NoEffect)
    ensures g in s.queues && s.queues[g] != [] ==>
              && r.effect == Dispatch(s.queues[g][0])
              && g in r.state.queues && s.queues[g] == [r.effect.track] + r.state.queues[g]
              && r.state.messages == s.messages
    ensures g in s.queues && s.queues[g] == [] ==>
              && r.effect == Teardown
              && g !in r.state.queues && g !in r.state.messages
    // no dispatch ever comes from outside the queue, and nothing else leaves it
    ensures Dispatched(r.effect) + QueueOf(r.state, g) == QueueOf(s, g)
    ensures SameElsewhere(s, r.state, g)
    ensures Consistent(s) ==> Consistent(r.state)
  {
    if g in s.queues then
      var queue := s.queues[g];
      if |queue| > 0 then
        Step(State(s.queues[g := queue[1..]], s.messages), Dispatch(queue[0]))
      else
        Step(State(s.queues - {g}, s.messages - {g}), Teardown)
    else
      Step(s, NoEffect)
  }

  /** The track-start handler. When the guild has a control message, it is
      deleted and a new one, showing the started track, is posted in the same
      channel and recorded instead; otherwise nothing happens. The queues are
      never touched. `newId` is the id the chat platform gives the new message. */
  function OnTrackStart(s: State, g: GuildId, started: Track, newId: Snowflake): (r: Step)
    ensures r.state.queues == s.queues
    ensures r.state.messages.Keys == s.messages.Keys
    ensures g !in s.messages ==> r == Step(s, NoEffect)
    ensures g in s.messages ==>
              && r.effect.Replace?
              && r.effect.deleted == s.messages[g]
              && r.effect.posted == r.state.messages[g]
              && r.effect.nowPlaying == started
              && r.effect.posted.channelId == r.effect.deleted.channelId
              && r.effect.posted.id == newId
    ensures SameElsewhere(s, r.state, g)
    ensures Consistent(s) ==> Consistent(r.state)
  {
    if g in s.messages then
      var current := s.messages[g];
      var posted := Message(current.channelId, newId);
      Step(State(s.queues, s.messages[g := posted]), Replace(current, posted, started))
    else
      Step(s, NoEffect)
  }
}
